=== FILE: README.md ===
# postMessage channel transport

A model of Storybook's `PostmsgTransport` (`code/lib/channel-postmessage/src/index.ts`):
the transport that carries channel events between the manager (the host
document) and the preview (the embedded iframe) over `window.postMessage`.

The transport is a small state machine around a first-in first-out outbound
buffer:

- `send(event, options)` resolves the frames addressed by `options.target`.
  With none it buffers the event and returns a pending promise. Otherwise it
  first flushes a non-empty buffer, then makes one `postMessage` attempt per
  frame, and returns `Promise.resolve(null)`.
- `flush()` detaches the buffer and sends every item again, in order, with no
  options (hence no target). Each item's original promise is settled by the
  re-send's promise.
- The handler installed by `setHandler` is wrapped: after each call, the first
  time a local frame exists, the buffer is flushed and the transport becomes
  connected.
- `handleEvent` ignores traffic without the `storybook-channel` key, copies a
  truthy `refId` onto the event, and attributes a source: the message origin
  in the preview, or `getEventSourceUrl` in the manager. A falsy source, a
  missing handler or any exception drops the message.
- Frame resolution (`getFrames`, `getCurrentFrames`, `getLocalFrame`) and
  source attribution (`getEventSourceUrl`) are queries over the document.

## How it is modelled

- `Dom.Env` is the browser state one call observes:
  - the document's elements, in document order;
  - whether `parent` exists and whether it is `self`;
  - the `refId` query parameter;
  - `CHANNEL_OPTIONS`;
  - the windows whose `postMessage` throws.
- `Transport.PostmsgTransport` is a class whose fields the methods update in
  place: `buffer`, `handler`, `connected`, `nextTicket` and `log`.
  - `log` records the effects on the outside world, oldest first: each
    `postMessage` attempt, each settled promise, each promise chained to a
    newer one, and each handler call.
  - Promises are identified by tickets.
  - `Send` and `Flush` call each other exactly as `send` and `flush` do.
  - Each method is proved against a specification function of module
    `Protocol`: `SendSpec`, `FlushSpec`, `SetHandlerSpec` and `HandleSpec`.
- `SendWith` and `FlushWith` are the same operations with the resolved frames
  as parameters. The properties in module `Properties` are proved about these
  specification functions.
- Frame resolution is in `Frames` and source attribution in `EventSource`;
  both are pure functions over `Env`. `Frames.GetFrames`,
  `Frames.CurrentFrames` and `Frames.LocalFrame` define `getFrames`,
  `getCurrentFrames` and `getLocalFrame`, and `EventSource.ComesFrom` is the
  candidate filter of `getEventSourceUrl`. They carry no contract of their
  own; `Frames.ManagerFramesMembership`, `Frames.PreviewFrames`,
  `Frames.ManagerLocalFrameMembership` and `EventSource.WindowComparisonDecides`
  characterise them. The validation half of `handleEvent` is
  `Inbound.Validate`.
- The encoder options are in `EncoderOptions.Merge`. They are recorded on each
  transmission (`Messages.Wire`); the encoded string itself is opaque.

Three behaviours of the code are easy to misread; the model follows the code:

- A manager `send` without a matching target does not resolve to nothing. It
  falls back to every `data-is-storybook="true"` frame (`index.ts:160`), so
  an untargeted send is buffered only when no such frame has a content window.
- Source attribution compares `src` origins only when reading the
  `contentWindow` throws. A comparison that merely fails rejects the frame.
- Several matching iframes make `getEventSourceUrl` return `null`. The first
  match is not picked.

One consequence is modelled as behaviour and shown by
`Properties.SendOvertakesBuffered` and `Properties.OvertakingExample`. Take a
manager send with a non-empty buffer whose target matches a loaded iframe that
carries `data-is-storybook` with a value other than `"true"`, in a document
where no `data-is-storybook="true"` element has a content window:

- the send transmits its own event;
- the flush it triggers finds no untargeted frames, so it buffers every older
  event again;
- the newer event therefore overtakes the older ones.

## Model

| member | source | states |
|---|---|---|
| Roles.ParseRole | code/lib/channel-postmessage/src/index.ts:44-47 | a role results exactly when `page` is "manager" or "preview", each naming its role; any other value is an error carrying that value |
| Transport.Create | code/lib/channel-postmessage/src/index.ts:37-48 | construction succeeds exactly when the page check passes, and yields a fresh transport with that role, an empty buffer, no handler and not connected; otherwise the error carries the bad value |
| Transport.PostmsgTransport.constructor | code/lib/channel-postmessage/src/index.ts:35-39 | a new transport starts with an empty buffer, no handler, not connected and nothing sent |
| Transport.PostmsgTransport.SetHandler | code/lib/channel-postmessage/src/index.ts:50-59 | the new handler replaces any previous one and nothing else changes |
| Transport.PostmsgTransport.Send | code/lib/channel-postmessage/src/index.ts:66-133 | the new state and the returned promise are those of `SendSpec`: buffer under a fresh pending promise when no frame resolves, otherwise flush a non-empty buffer first, then one attempt per frame and a null result |
| Transport.PostmsgTransport.Flush | code/lib/channel-postmessage/src/index.ts:135-141 | the new state is `FlushSpec`: every detached item is re-sent in order with no options and its promise is settled by, or chained to, the re-send's promise |
| Transport.PostmsgTransport.Broadcast | code/lib/channel-postmessage/src/index.ts:124-130 | exactly the attempts of `Posts` are appended to the log, one per frame in order, and nothing else changes |
| Transport.PostmsgTransport.HandleEvent | code/lib/channel-postmessage/src/index.ts:198-242 | the new state is `HandleSpec`: an accepted message reaches the handler, and the first delivery that finds a local frame flushes the buffer and connects |
| EncoderOptions.Merge | code/lib/channel-postmessage/src/index.ts:67-100 | a codec option set by the call wins, then `CHANNEL_OPTIONS`, then the defaults `allowFunction: true, maxDepth: 25`; only the nine codec options are taken from the call, and an undefined per-call value overrides nothing; `target` is present only if the global options carry it |
| Frames.ManagerFramesMembership | code/lib/channel-postmessage/src/index.ts:143-161 | a window is addressed by the manager exactly when it belongs to a loaded storybook iframe whose id is the target and whose window can be read, or, when no such iframe has a window, to an element with `data-is-storybook="true"` |
| Frames.UntargetedManagerFallsBack | code/lib/channel-postmessage/src/index.ts:149-160 | without a string target the manager addresses exactly its current frames |
| Frames.PreviewFrames | code/lib/channel-postmessage/src/index.ts:163-196 | the preview addresses `[parent]` exactly when a parent exists and is not `self`, whatever the target; its current and local frames are `[parent]` whenever a parent exists |
| Frames.ManagerLocalFrameMembership | code/lib/channel-postmessage/src/index.ts:184-190 | the manager's local frame is the window of any element with id `storybook-preview-iframe` |
| EventSource.EventSourceUrl | code/lib/channel-postmessage/src/index.ts:245-286 | a result other than null exactly when one storybook iframe matches and it has a `src`; that result is the URL of the resolved `src` or, when `src` cannot be resolved, an exception |
| EventSource.AmbiguousSourceIsNull | code/lib/channel-postmessage/src/index.ts:273-285 | several matching iframes give null |
| EventSource.WindowComparisonDecides | code/lib/channel-postmessage/src/index.ts:251-257 | an iframe whose window can be read matches exactly when its window is the message's source, whatever its `src` |
| EventSource.OriginFallbackAttributes | code/lib/channel-postmessage/src/index.ts:245-276 | when the document's only storybook iframe cannot have its window read and its `src` resolves to the message's origin, it is reported as the source, whatever other elements the document holds |
| Inbound.SourceOf | code/lib/channel-postmessage/src/index.ts:218-219 | the preview takes the message origin; the manager gets a truthy source exactly when the lookup finds a non-empty URL, and nothing when the lookup throws |
| Inbound.Validate | code/lib/channel-postmessage/src/index.ts:198-235 | untagged traffic is ignored; a message is accepted exactly when it is tagged, carries an event with iterable args and has a truthy source; the accepted event keeps type and args, takes a truthy `refId` and carries the attributed source |
| Protocol.PostsOnePerFrame | code/lib/channel-postmessage/src/index.ts:124-130 | one attempt per frame, in frame order, each with the same payload; a throwing frame is recorded as failed and the later frames still get their attempt |
| Protocol.RebufferKeepsEvents | code/lib/channel-postmessage/src/index.ts:115-119 | a flush that finds no frames buffers every event again in its place, under consecutive fresh tickets |
| Protocol.ResendBuffers | code/lib/channel-postmessage/src/index.ts:115-119 | a re-send without options that finds no untargeted frames appends the event to the buffer, returns a pending promise and sends nothing |
| Protocol.ResendTransmits | code/lib/channel-postmessage/src/index.ts:120-132 | a re-send without options, with untargeted frames and an empty buffer, sends to exactly those frames and returns null |
| Protocol.FlushedOneMore | code/lib/channel-postmessage/src/index.ts:138-140 | re-sending the next detached item and settling its promise extends a flush by exactly that item |
| Properties.PostsEffects | code/lib/channel-postmessage/src/index.ts:124-130 | the transmission loop sends the event once per frame and settles and calls nothing |
| Properties.RedeliverEffects | code/lib/channel-postmessage/src/index.ts:135-141 | a flush that finds frames sends the buffered events in insertion order, each once per frame, settles their promises in the same order and calls no handler |
| Properties.RedeliverForgetsOptions | code/lib/channel-postmessage/src/index.ts:139 | every flushed transmission goes to an untargeted frame with the current `refId` and only the default and global options: the original target and options are lost |
| Properties.ChainsEffects | code/lib/channel-postmessage/src/index.ts:135-141 | a flush that finds no frames sends, settles and calls nothing |
| Properties.FlushOutcome | code/lib/channel-postmessage/src/index.ts:135-141 | after a flush the buffer is either empty, with all items sent in order and settled in order, or, with no frames, holds the same events in the same order and nothing was sent; handler and readiness are kept and the log only grows |
| Properties.SendBuffers | code/lib/channel-postmessage/src/index.ts:115-119 | with no frames for the target, exactly one entry with the event is appended to the end of the buffer, nothing is sent, readiness and handler are kept, and the promise is pending |
| Properties.SendTransmits | code/lib/channel-postmessage/src/index.ts:115-132 | with frames for the target and for the flush, the whole buffer is re-delivered and then the event is sent; the buffer ends empty and the result is null |
| Properties.FlushThenPostOrder | code/lib/channel-postmessage/src/index.ts:120-132 | flush-then-send transmits the buffered events, each once per untargeted frame, before the new event once per target frame, and settles exactly the buffered promises in order |
| Properties.SendFlushesFirst | code/lib/channel-postmessage/src/index.ts:120-132 | a send whose target and whose flush's untargeted re-sends both find frames transmits every buffered event, in order, before its own, and settles the buffered promises in insertion order |
| Properties.OnlyManagerOvertakes | code/lib/channel-postmessage/src/index.ts:143-168 | a target that resolves while the untargeted lookup does not can only happen on the manager with a string target |
| Properties.SendOvertakesBuffered | code/lib/channel-postmessage/src/index.ts:102-132 | when the target resolves but the flush's untargeted re-sends do not, only the new event is sent and the older events stay buffered in order |
| Properties.OvertakingExample | code/lib/channel-postmessage/src/index.ts:102-141 | a concrete manager document in which a buffered event is buffered again under a new ticket while a later event is transmitted |
| Properties.UntargetedSendReachesPeers | code/lib/channel-postmessage/src/index.ts:160 | a manager send without a target, with an empty buffer and some declared peer that has a content window, is sent to every such window and not buffered |
| Properties.ThreeBuffered | code/lib/channel-postmessage/src/index.ts:115-119 | sends that find no frames queue their events in call order under consecutive pending promises |
| Properties.UntargetedSend | code/lib/channel-postmessage/src/index.ts:66-102 | a send without options resolves the same untargeted frames for itself and for its flush |
| Properties.FifoAcrossSends | code/lib/channel-postmessage/src/index.ts:115-141 | three buffered sends followed by a send that finds frames transmit a, b, c, d in that order, each once per frame, and settle the three promises in order |
| Properties.ReadinessIsOneWay | code/lib/channel-postmessage/src/index.ts:50-58 | connected never reverts; it becomes true only after an accepted message has reached the handler while a local frame exists, and at that moment the buffer is flushed; once connected, a delivery only calls the handler |
| Properties.FlushOnlyOnFirstDelivery | code/lib/channel-postmessage/src/index.ts:50-58 | of two deliveries with a local frame present, only the first flushes and connects |
| Properties.ForeignTrafficIgnored | code/lib/channel-postmessage/src/index.ts:204 | a message without the channel key changes nothing |
| Properties.RejectedMessageDropped | code/lib/channel-postmessage/src/index.ts:199-241 | a message that fails validation changes nothing |
| Properties.NoHandlerDropped | code/lib/channel-postmessage/src/index.ts:236-241 | with no handler set, the message is dropped without effect |
| Properties.HandledOnce | code/lib/channel-postmessage/src/index.ts:50-58 | a handler call followed by either kind of flush (re-delivery to frames, or chaining when none resolve) adds exactly one handler call |
| Properties.DeliveryCallsHandlerOnce | code/lib/channel-postmessage/src/index.ts:50-58 | an accepted message delivered while a handler is set calls that handler exactly once, whether or not the delivery flushes |
| Properties.HandlerReplaced | code/lib/channel-postmessage/src/index.ts:50-59 | after two `setHandler` calls a delivery calls only the second handler, once |

## Left out

- The DOM queries, `addEventListener`, `postMessage` and `window.parent`/`self` are not modelled. The elements, parent, query parameter, global options and failing windows are an `Env` value passed to each call. Transmissions go to a log.
- The listener that the constructor registers before its page check throws is not modelled. `Create` returns an error instead.
- telejson `stringify`, `parse` and `isJSON` are not modelled. A transmission records the envelope and options it would encode. An inbound payload is either a decoded envelope or `Unreadable`. An exception thrown by `stringify` is not modelled.
- `qs.parse` of `location.search` is not modelled; the `refId` query value is an input.
- `new URL(src, document.location)` is not modelled. Each `src` attribute carries its resolution outcome, with `None` when the constructor throws.
- Logging and the coloured debug strings are not modelled, and neither is the `EVENTS` lookup. Dropped messages carry a reason instead of an error log.
- Promise timing is not modelled. A settled promise appears in the log at the moment its settlement is arranged. The `.catch(item.reject)` path cannot fire, because `send` never rejects in the model.
- A user handler that throws, or that re-enters the transport, is not modelled. The handler is an identity recorded in the log.
- Options that are not an object are not modelled, and neither are getters on them. `options` is absent or a map from names to values.
- Numbers are integers. The model has no NaN, fractions or objects as option values.
- The in-place mutation of the inbound event object (`event.refId`, `event.source`) is modelled on a copy. Aliasing of that object with the caller's data is not modelled.
- Buffered outbound events are modelled as values. `send` buffers the caller's event object by reference (`index.ts:117`), and `flush` encodes it only when it runs (`index.ts:139`). So a change the caller makes to that object before the flush is what gets transmitted. `Pending` keeps the event as it was at the time of the send, so this aliasing is not captured.
- Frames.ManagerFramesMembership, Frames.ManagerLocalFrameMembership: an element whose `contentWindow` cannot be read is dropped by `getFrames`, as the `catch` at `index.ts:155` does. `getCurrentFrames` (`index.ts:175`) and `getLocalFrame` (`index.ts:189`) read `contentWindow` outside any `try`, so there the read throws. The model does not capture those exceptions; it treats such an element like any other. An exception escaping `send` synchronously is not modelled. That includes the `forEach` of a flush stopping part-way and the wrapped handler throwing after the user handler has run.
- `createChannel` and the default export (`index.ts:291-297`) are not modelled. They only wrap the transport in a `Channel` from a library that is not part of this model.

=== FILE: dom.dfy ===
/**
 * The part of the browser the transport observes: the elements its selectors can
 * match, the `parent`/`self` windows, the `refId` query parameter of `location.search`,
 * the global `CHANNEL_OPTIONS` and which windows refuse a `postMessage`.
 */
module Dom {
  import opened Wrappers
  import Js

  /** An opaque handle to a window (a frame's `contentWindow`, or `parent`). */
  type WindowRef = nat

  datatype Tag = IFrame | OtherElement

  /** The parts of a parsed `URL` the transport reads. */
  datatype Url = Url(protocol: string, host: string, pathname: string, origin: string)

  /**
   * The text of a `src` attribute together with the outcome of resolving it
   * against the document's location (`new URL(src, document.location)`);
   * `resolved == None` means that constructor throws.
   */
  datatype SrcAttr = SrcAttr(text: string, resolved: Option<Url>)

  /**
   * A document element.  `isStorybook` is the value of `data-is-storybook`
   * (None when the attribute is absent), `isLoaded` says whether `data-is-loaded`
   * is present, `contentWindow` is None when it is null, `src` is what
   * `getAttribute('src')` returns, and `windowThrows` says whether reading its
   * `contentWindow` throws.  Target resolution catches that exception and
   * drops the element; source attribution catches it and falls back to the
   * origin of `src`.
   */
  datatype Element = Element(
    tag: Tag,
    id: string,
    isStorybook: Option<string>,
    isLoaded: bool,
    contentWindow: Option<WindowRef>,
    src: Option<SrcAttr>,
    windowThrows: bool)

  /**
   * The environment one call observes.  `elements` is in document order;
   * `hasParent` says whether `window.parent` is set and `parentIsSelf` whether it
   * is the window itself (a top-level window); `refIdQuery` is `refId` of the
   * parsed query string; `channelOptions` is `CHANNEL_OPTIONS || {}`;
   * `unreachable` holds the windows whose `postMessage` throws.
   */
  datatype Env = Env(
    elements: seq<Element>,
    hasParent: bool,
    parentIsSelf: bool,
    parent: WindowRef,
    refIdQuery: Js.Value,
    channelOptions: map<string, Js.Value>,
    unreachable: set<WindowRef>)
}

=== FILE: encoder_options.dfy ===
/** The encoder options a send uses: defaults, then `CHANNEL_OPTIONS`, then the call's own options. */
module EncoderOptions {
  import opened Wrappers
  import opened Js

  /** The per-call options that are passed on to the encoder. */
  const CodecKeys: set<string> := {
    "allowRegExp", "allowFunction", "allowSymbol", "allowDate", "allowUndefined",
    "allowClass", "maxDepth", "space", "lazyEval"
  }

  /** `defaultEventOptions`. */
  const Defaults: map<string, Value> := map["allowFunction" := Bool(true), "maxDepth" := Num(25)]

  /** Destructuring one property out of `options || {}`; a missing property reads as Undefined. */
  function Field(options: Option<map<string, Value>>, k: string): Value {
    if options.Some? && k in options.value then options.value[k] else Undefined
  }

  /** Whether the call itself sets codec option `k` to something other than undefined. */
  predicate SetByCall(options: Option<map<string, Value>>, k: string) {
    k in CodecKeys && Field(options, k) != Undefined
  }

  /**
   * `eventOptions`: the call's codec options whose value is not undefined;
   * `target` and any other property of the call's options are not among them.
   */
  function FromCall(options: Option<map<string, Value>>): map<string, Value> {
    map k | k in CodecKeys && Field(options, k) != Undefined :: Field(options, k)
  }

  /**
   * `{ ...defaultEventOptions, ...(CHANNEL_OPTIONS || {}), ...eventOptions }`:
   * a codec option the call sets wins, otherwise the global one, otherwise the
   * default; an undefined per-call value overrides nothing, and a `target` can
   * only come from the global options.
   */
  function Merge(global: map<string, Value>, options: Option<map<string, Value>>): (r: map<string, Value>)
    ensures forall k :: k in r <==> k in Defaults || k in global || SetByCall(options, k)
    ensures forall k :: SetByCall(options, k) ==> r[k] == Field(options, k)
    ensures forall k :: k in global && !SetByCall(options, k) ==> r[k] == global[k]
    ensures forall k :: k in Defaults && k !in global && !SetByCall(options, k) ==> r[k] == Defaults[k]
    ensures "target" in r <==> "target" in global
  {
    Defaults + global + FromCall(options)
  }
}

=== FILE: event_source.dfy ===
/**
 * `getEventSourceUrl`: on the manager side, which storybook iframe an inbound
 * message came from, given as that iframe's `protocol//host/pathname`.
 */
module EventSource {
  import opened Wrappers
  import opened Dom
  import opened Messages
  import opened Frames

  /** `getAttribute('src')` is truthy. */
  predicate SrcSet(src: Option<SrcAttr>) {
    src.Some? && src.value.text != ""
  }

  /** Matched by `iframe[data-is-storybook]`. */
  predicate StorybookIframe(e: Element) {
    e.tag == IFrame && e.isStorybook.Some?
  }

  /**
   * The filter's test: the frame's window is the message's source; only when
   * reading that window throws, the origin of its resolved `src` is the message's.
   */
  predicate ComesFrom(e: Element, msg: Message) {
    if !e.windowThrows then e.contentWindow == msg.source
    else SrcSet(e.src) && e.src.value.resolved.Some? && e.src.value.resolved.value.origin == msg.origin
  }

  /** The storybook iframes the message may have come from, in document order. */
  function Candidates(env: Env, msg: Message): seq<Element> {
    Filter(env.elements, e => StorybookIframe(e) && ComesFrom(e, msg))
  }

  /** The string `${protocol}//${host}${pathname}`. */
  function Href(u: Url): string {
    u.protocol + "//" + u.host + u.pathname
  }

  /** The outcome of the lookup: a URL, `null`, or an exception from `new URL`. */
  datatype Lookup = Found(url: string) | NotFound | Threw

  /**
   * `getEventSourceUrl`: a URL only when exactly one iframe matches and it has a
   * `src`; no match, several matches or a match without `src` give `null`; a
   * sole match whose `src` cannot be parsed makes `new URL` throw.
   */
  function EventSourceUrl(env: Env, msg: Message): (r: Lookup)
    ensures !r.NotFound? <==> |Candidates(env, msg)| == 1 && SrcSet(Candidates(env, msg)[0].src)
    ensures r.Found? ==>
      Candidates(env, msg)[0].src.value.resolved.Some? &&
      r.url == Href(Candidates(env, msg)[0].src.value.resolved.value)
    ensures r.Threw? ==> Candidates(env, msg)[0].src.value.resolved.None?
  {
    var matches := Candidates(env, msg);
    if |matches| == 0 then NotFound
    else
      var src := matches[0].src;
      if SrcSet(src) && |matches[1..]| == 0 then
        match src.value.resolved
        case Some(u) => Found(Href(u))
        case None => Threw
      else NotFound
  }

  /** Several matching iframes give `null`: the first one is not picked. */
  lemma AmbiguousSourceIsNull(env: Env, msg: Message)
    requires |Candidates(env, msg)| > 1
    ensures EventSourceUrl(env, msg) == NotFound
  {
  }

  /**
   * For an iframe whose window can be read, the origin of its `src` plays
   * no part: it is a candidate exactly when its window is the message's source.
   */
  lemma WindowComparisonDecides(env: Env, msg: Message, e: Element)
    requires e in env.elements && StorybookIframe(e) && !e.windowThrows
    ensures e in Candidates(env, msg) <==> e.contentWindow == msg.source
  {
    FilterMembership(env.elements, e => StorybookIframe(e) && ComesFrom(e, msg));
  }

  /**
   * The origin fallback: when the document's only storybook iframe cannot have
   * its window read and its `src` resolves to the message's origin, that
   * iframe is reported as the source, whatever other elements there are.
   */
  lemma OriginFallbackAttributes(env: Env, msg: Message, i: nat, text: string, u: Url)
    requires i < |env.elements|
    requires StorybookIframe(env.elements[i]) && env.elements[i].windowThrows
    requires env.elements[i].src == Some(SrcAttr(text, Some(u))) && text != "" && u.origin == msg.origin
    requires forall j :: 0 <= j < |env.elements| && j != i ==> !StorybookIframe(env.elements[j])
    ensures EventSourceUrl(env, msg) == Found(Href(u))
  {
    FilterSplit(env.elements, e => StorybookIframe(e) && ComesFrom(e, msg), i);
  }
}

=== FILE: frames.dfy ===
/**
 * Target resolution: which windows a send addresses (`getFrames`), which count as
 * the current peers (`getCurrentFrames`) and which is the local peer used for
 * readiness (`getLocalFrame`).  All three are re-evaluated on every call.
 */
module Frames {
  import opened Wrappers
  import opened Js
  import opened Dom
  import opened Roles

  /** The elements of `es` that `keep` selects, in document order. */
  function Filter(es: seq<Element>, keep: Element -> bool): (r: seq<Element>)
  {
    if es == [] then []
    else (if keep(es[0]) then [es[0]] else []) + Filter(es[1..], keep)
  }

  /** `flatMap(e => e.contentWindow ? [e.contentWindow] : [])`. */
  function Windows(es: seq<Element>): (ws: seq<WindowRef>)
  {
    if es == [] then []
    else
      (match es[0].contentWindow
       case Some(w) => [w]
       case None => []) + Windows(es[1..])
  }

  /**
   * Matched by `iframe[data-is-storybook][data-is-loaded]` and with `id === target`;
   * an element whose `contentWindow` cannot be read is dropped by the `catch`.
   */
  predicate TargetFrame(e: Element, target: Value) {
    e.tag == IFrame && e.isStorybook.Some? && e.isLoaded && !e.windowThrows && target == Str(e.id)
  }

  /** Matched by `[data-is-storybook="true"]`. */
  predicate DeclaredPeer(e: Element) {
    e.isStorybook == Some("true")
  }

  const PreviewIframeId: string := "storybook-preview-iframe"

  /** Matched by `#storybook-preview-iframe`. */
  predicate PreviewIframe(e: Element) {
    e.id == PreviewIframeId
  }

  /** `getCurrentFrames`. */
  function CurrentFrames(role: Role, env: Env): seq<WindowRef> {
    match role
    case Manager => Windows(Filter(env.elements, DeclaredPeer))
    case Preview => if env.hasParent then [env.parent] else []
  }

  /**
   * `getFrames(target)`: for the manager, the windows of the loaded storybook
   * iframes whose id is `target`, or `getCurrentFrames()` when there are none;
   * for the preview, the parent unless it is the window itself.
   */
  function GetFrames(role: Role, env: Env, target: Value): seq<WindowRef> {
    match role
    case Manager =>
      var list := Windows(Filter(env.elements, e => TargetFrame(e, target)));
      if |list| > 0 then list else CurrentFrames(Manager, env)
    case Preview => if env.hasParent && !env.parentIsSelf then [env.parent] else []
  }

  /** `getLocalFrame`. */
  function LocalFrame(role: Role, env: Env): seq<WindowRef> {
    match role
    case Manager => Windows(Filter(env.elements, PreviewIframe))
    case Preview => if env.hasParent then [env.parent] else []
  }

  /** `Filter` keeps exactly the selected elements. */
  lemma {:induction false} FilterMembership(es: seq<Element>, keep: Element -> bool)
    ensures forall e :: e in Filter(es, keep) <==> e in es && keep(e)
  {
    if es != [] {
      FilterMembership(es[1..], keep);
      assert es == [es[0]] + es[1..];
    }
  }

  /** `Windows` yields exactly the non-null windows of its elements. */
  lemma {:induction false} WindowsMembership(es: seq<Element>)
    ensures forall w :: w in Windows(es) <==> exists e :: e in es && e.contentWindow == Some(w)
  {
    if es != [] {
      WindowsMembership(es[1..]);
      assert es == [es[0]] + es[1..];
    }
  }

  /** The windows of the elements `keep` selects. */
  lemma FrameWindowsMembership(es: seq<Element>, keep: Element -> bool)
    ensures forall w :: w in Windows(Filter(es, keep)) <==> exists e :: e in es && keep(e) && e.contentWindow == Some(w)
  {
    FilterMembership(es, keep);
    WindowsMembership(Filter(es, keep));
  }

  /** A filter that selects nothing yields nothing. */
  lemma FilterNone(es: seq<Element>, keep: Element -> bool)
    requires forall e :: e in es ==> !keep(e)
    ensures Filter(es, keep) == []
  {
    FilterMembership(es, keep);
  }

  /** A filter that selects only the element at index `i` yields just that element. */
  lemma {:induction false} FilterSplit(es: seq<Element>, keep: Element -> bool, i: nat)
    requires i < |es| && keep(es[i])
    requires forall j :: 0 <= j < |es| && j != i ==> !keep(es[j])
    ensures Filter(es, keep) == [es[i]]
    decreases i
  {
    if i == 0 {
      forall e | e in es[1..]
        ensures !keep(e)
      {
        var j :| 0 <= j < |es[1..]| && es[1..][j] == e;
        assert es[j + 1] == e;
      }
      FilterNone(es[1..], keep);
    } else {
      FilterSplit(es[1..], keep, i - 1);
    }
  }

  /**
   * Manager resolution: a window is addressed exactly when it belongs to a
   * loaded storybook iframe named `target` whose window can be read, or, when no such iframe has a
   * window, to an element whose `data-is-storybook` is "true".
   */
  lemma ManagerFramesMembership(env: Env, target: Value, w: WindowRef)
    ensures w in GetFrames(Manager, env, target) <==>
      (exists e :: e in env.elements && TargetFrame(e, target) && e.contentWindow == Some(w)) ||
      (Windows(Filter(env.elements, e => TargetFrame(e, target))) == [] &&
       exists e :: e in env.elements && DeclaredPeer(e) && e.contentWindow == Some(w))
  {
    var list := Windows(Filter(env.elements, e => TargetFrame(e, target)));
    FrameWindowsMembership(env.elements, e => TargetFrame(e, target));
    FrameWindowsMembership(env.elements, DeclaredPeer);
    if |list| > 0 {
      assert GetFrames(Manager, env, target) == list;
    } else {
      assert list == [];
      assert GetFrames(Manager, env, target) == CurrentFrames(Manager, env);
    }
  }

  /**
   * Without a string target (no options, or no `target` in them) nothing has a
   * matching id, so the manager falls back to every current peer rather than
   * resolving to nothing.
   */
  lemma UntargetedManagerFallsBack(env: Env, target: Value)
    requires !target.Str?
    ensures GetFrames(Manager, env, target) == CurrentFrames(Manager, env)
  {
    FilterNone(env.elements, e => TargetFrame(e, target));
  }

  /**
   * Preview resolution: the parent is addressed only when it is not the window
   * itself, whatever the target; the current and the local peer are the parent
   * whenever there is one.
   */
  lemma PreviewFrames(env: Env, target: Value)
    ensures GetFrames(Preview, env, target) == GetFrames(Preview, env, Undefined)
    ensures GetFrames(Preview, env, target) != [] <==> env.hasParent && !env.parentIsSelf
    ensures GetFrames(Preview, env, target) != [] ==> GetFrames(Preview, env, target) == [env.parent]
    ensures CurrentFrames(Preview, env) == LocalFrame(Preview, env)
    ensures env.hasParent ==> CurrentFrames(Preview, env) == [env.parent]
    ensures CurrentFrames(Preview, env) != [] <==> env.hasParent
    ensures GetFrames(Preview, env, target) != [] ==> CurrentFrames(Preview, env) == GetFrames(Preview, env, target)
  {
  }

  /**
   * The local peer of the manager is the window of an element with id
   * `storybook-preview-iframe`, of any tag and whatever its data attributes.
   */
  lemma ManagerLocalFrameMembership(env: Env, w: WindowRef)
    ensures w in LocalFrame(Manager, env) <==>
      exists e :: e in env.elements && e.id == PreviewIframeId && e.contentWindow == Some(w)
  {
    FrameWindowsMembership(env.elements, PreviewIframe);
  }
}

=== FILE: inbound.dfy ===
/**
 * The validation half of `handleEvent`: envelope tag check, `refId`
 * propagation and source attribution, up to the point where the handler
 * would be called.
 */
module Inbound {
  import opened Wrappers
  import opened Js
  import opened Dom
  import opened Roles
  import opened Messages
  import opened EventSource

  /** Why a message addressed to this protocol was dropped (each is caught and logged). */
  datatype DropReason =
    | Undecodable      // parsing or destructuring the payload throws
    | MissingEvent     // `event.type` throws on a missing event
    | LookupThrew      // `new URL(src)` throws inside `getEventSourceUrl`
    | NoSource         // the attributed source is falsy
    | ArgsNotIterable  // spreading `event.args` into the debug log throws

  /** What happens to one inbound message before the handler is consulted. */
  datatype Verdict = Ignored | Dropped(reason: DropReason) | Accepted(event: Event)

  /**
   * The value assigned to `event.source`: the message's origin for the preview,
   * the looked-up frame URL (or `null`) for the manager; None when the lookup throws.
   */
  function SourceOf(role: Role, env: Env, msg: Message): (r: Option<Value>)
    ensures role == Preview ==> r == Some(Str(msg.origin))
    ensures role == Manager ==>
      (r.None? <==> EventSourceUrl(env, msg).Threw?) &&
      (r.Some? && Truthy(r.value) <==> EventSourceUrl(env, msg).Found? && EventSourceUrl(env, msg).url != "")
  {
    match role
    case Preview => Some(Str(msg.origin))
    case Manager =>
      match EventSourceUrl(env, msg)
      case Found(u) => Some(Str(u))
      case NotFound => Some(Null)
      case Threw => None
  }

  /** The envelope carries this protocol's tag. */
  predicate Tagged(msg: Message) {
    msg.data.Readable? && msg.data.envelope.key == Str(KEY)
  }

  /** The event after `refId` has been copied onto it when truthy. */
  function WithRefId(envelope: Envelope, ev: Event): Event {
    if Truthy(envelope.refId) then ev.(refId := envelope.refId) else ev
  }

  /**
   * `handleEvent` up to the handler call: untagged traffic is ignored, a
   * message is accepted exactly when it is tagged, carries an event with
   * iterable args and gets a truthy source, and the accepted event is the sent
   * one with its `refId` and `source` filled in.
   */
  function Validate(role: Role, env: Env, msg: Message): (r: Verdict)
    ensures msg.data.Unreadable? ==> r == Dropped(Undecodable)
    ensures msg.data.Readable? && !Tagged(msg) ==> r == Ignored
    ensures r.Accepted? <==>
      Tagged(msg) && msg.data.envelope.event.Some? && msg.data.envelope.event.value.args.Some? &&
      SourceOf(role, env, msg).Some? && Truthy(SourceOf(role, env, msg).value)
    ensures r.Accepted? ==>
      var sent := msg.data.envelope.event.value;
      && r.event.eventType == sent.eventType
      && r.event.args == sent.args
      && r.event.refId == (if Truthy(msg.data.envelope.refId) then msg.data.envelope.refId else sent.refId)
      && Truthy(r.event.source)
      && (role == Preview ==> r.event.source == Str(msg.origin))
      && (role == Manager ==> r.event.source.Str? && EventSourceUrl(env, msg) == Found(r.event.source.s))
  {
    match msg.data
    case Unreadable => Dropped(Undecodable)
    case Readable(envelope) =>
      if envelope.key != Str(KEY) then Ignored
      else
        match envelope.event
        case None => Dropped(MissingEvent)
        case Some(sent) =>
          var ev := WithRefId(envelope, sent);
          match SourceOf(role, env, msg)
          case None => Dropped(LookupThrew)
          case Some(source) =>
            if !Truthy(source) then Dropped(NoSource)
            else if ev.args.None? then Dropped(ArgsNotIterable)
            else Accepted(ev.(source := source))
  }
}

=== FILE: js.dfy ===
/** The JavaScript values the transport inspects. */
module Js {
  /** Numbers are modelled as integers; objects and arrays the transport never looks into are left out. */
  datatype Value = Undefined | Null | Bool(b: bool) | Num(n: int) | Str(s: string)

  /** JavaScript truthiness, as used by `if (refId)` and `if (!event.source)`. */
  predicate Truthy(v: Value) {
    match v
    case Undefined => false
    case Null => false
    case Bool(b) => b
    case Num(n) => n != 0
    case Str(s) => s != ""
  }
}

=== FILE: messages.dfy ===
/** The envelope exchanged over `postMessage` and the events it carries. */
module Messages {
  import opened Wrappers
  import opened Js
  import Dom

  /** The tag that marks this protocol's envelopes among unrelated window messages. */
  const KEY: string := "storybook-channel"

  /**
   * A channel event.  `args` is None when it is missing or not iterable;
   * `source` and `refId` are Undefined until inbound handling sets them.
   */
  datatype Event = Event(eventType: Value, args: Option<seq<Value>>, source: Value, refId: Value)

  /** The `{ key, event, refId }` object a message decodes to. */
  datatype Envelope = Envelope(key: Value, event: Option<Event>, refId: Value)

  /**
   * The decoded payload of an inbound message; Unreadable stands for a payload
   * whose parsing or destructuring throws (null, undefined, a failing parse).
   */
  datatype Payload = Readable(envelope: Envelope) | Unreadable

  /** An inbound `MessageEvent`: its decoded data, `origin` and `source` window. */
  datatype Message = Message(data: Payload, origin: string, source: Option<Dom.WindowRef>)

  /**
   * What one transmission hands to the encoder: the envelope fields and the
   * merged encoder options.  The encoded string itself is left opaque.
   */
  datatype Wire = Wire(key: string, event: Event, refId: Value, options: map<string, Value>)
}

=== FILE: properties.dfy ===
/**
 * What the transport promises, stated over the specification functions:
 * buffering, flush order, flush-before-transmit, the one-way readiness flag,
 * the single handler slot and inbound filtering.
 */
module Properties {
  import opened Wrappers
  import opened Js
  import opened Dom
  import opened Roles
  import opened Messages
  import opened EncoderOptions
  import opened Frames
  import opened Inbound
  import opened Protocol

  /** The entries `pick` extracts from each effect of `log`, in log order. */
  function Collect<T>(log: seq<Effect>, pick: Effect -> seq<T>): seq<T> {
    if log == [] then [] else Collect(log[..|log| - 1], pick) + pick(log[|log| - 1])
  }

  function PostedEvent(e: Effect): seq<Event> {
    if e.Posted? then [e.wire.event] else []
  }

  function SettledTicket(e: Effect): seq<nat> {
    if e.Settled? then [e.ticket] else []
  }

  function CalledHandler(e: Effect): seq<HandlerId> {
    if e.Handled? then [e.handler] else []
  }

  /** The events transmitted in `log`, one entry per `postMessage` attempt. */
  function PostedEvents(log: seq<Effect>): seq<Event> {
    Collect(log, PostedEvent)
  }

  function Events(items: seq<Pending>): seq<Event> {
    seq(|items|, i requires 0 <= i < |items| => items[i].event)
  }

  function Tickets(items: seq<Pending>): seq<nat> {
    seq(|items|, i requires 0 <= i < |items| => items[i].ticket)
  }

  function Copies(e: Event, k: nat): seq<Event> {
    seq(k, _ => e)
  }

  /** Each event of `events`, in order, once per frame. */
  function Fan(events: seq<Event>, k: nat): seq<Event> {
    if events == [] then [] else Fan(events[..|events| - 1], k) + Copies(events[|events| - 1], k)
  }

  lemma {:induction false} CollectAppend<T>(a: seq<Effect>, b: seq<Effect>, pick: Effect -> seq<T>)
    ensures Collect(a + b, pick) == Collect(a, pick) + Collect(b, pick)
    decreases |b|
  {
    if b == [] {
      assert a + b == a;
    } else {
      var ab := a + b;
      assert ab[..|ab| - 1] == a + b[..|b| - 1];
      CollectAppend(a, b[..|b| - 1], pick);
    }
  }

  lemma CollectStep<T>(a: seq<Effect>, b: seq<Effect>, x: Effect, pick: Effect -> seq<T>)
    ensures Collect(a + b + [x], pick) == Collect(a, pick) + Collect(b, pick) + pick(x)
  {
    CollectAppend(a, b, pick);
    CollectAppend(a + b, [x], pick);
    assert Collect([x], pick) == pick(x) by {
      assert [x][..0] == [];
    }
  }

  /** One transmission loop sends the event once per frame and settles and calls nothing. */
  lemma {:induction false} PostsEffects(frames: seq<WindowRef>, wire: Wire, env: Env)
    ensures PostedEvents(Posts(frames, wire, env)) == Copies(wire.event, |frames|)
    ensures Collect(Posts(frames, wire, env), SettledTicket) == []
    ensures Collect(Posts(frames, wire, env), CalledHandler) == []
    decreases |frames|
  {
    if frames != [] {
      var init := frames[..|frames| - 1];
      var p := Posts(frames, wire, env);
      assert p[..|p| - 1] == Posts(init, wire, env);
      PostsEffects(init, wire, env);
      assert Copies(wire.event, |frames|) == Copies(wire.event, |init|) + [wire.event];
    }
  }

  /** The buffered events of a flush that finds frames are transmitted in insertion order, once per frame. */
  lemma {:induction false} RedeliverPosts(items: seq<Pending>, frames: seq<WindowRef>, env: Env)
    ensures PostedEvents(Redeliver(items, frames, env)) == Fan(Events(items), |frames|)
    decreases |items|
  {
    if items != [] {
      var init := items[..|items| - 1];
      var last := items[|items| - 1];
      var sent := Posts(frames, WireFor(env, last.event, None), env);
      var ev := Events(items);
      RedeliverPosts(init, frames, env);
      PostsEffects(frames, WireFor(env, last.event, None), env);
      CollectStep(Redeliver(init, frames, env), sent, Settled(last.ticket), PostedEvent);
      assert ev[..|ev| - 1] == Events(init);
      assert Fan(ev, |frames|) == Fan(Events(init), |frames|) + Copies(last.event, |frames|);
    }
  }

  /** ... their promises settle in the same order ... */
  lemma {:induction false} RedeliverSettles(items: seq<Pending>, frames: seq<WindowRef>, env: Env)
    ensures Collect(Redeliver(items, frames, env), SettledTicket) == Tickets(items)
    decreases |items|
  {
    if items != [] {
      var init := items[..|items| - 1];
      var last := items[|items| - 1];
      var sent := Posts(frames, WireFor(env, last.event, None), env);
      RedeliverSettles(init, frames, env);
      PostsEffects(frames, WireFor(env, last.event, None), env);
      CollectStep(Redeliver(init, frames, env), sent, Settled(last.ticket), SettledTicket);
      assert Tickets(items) == Tickets(init) + [last.ticket];
    }
  }

  /** ... and no handler is called. */
  lemma {:induction false} RedeliverCallsNothing(items: seq<Pending>, frames: seq<WindowRef>, env: Env)
    ensures Collect(Redeliver(items, frames, env), CalledHandler) == []
    decreases |items|
  {
    if items != [] {
      var init := items[..|items| - 1];
      var last := items[|items| - 1];
      var sent := Posts(frames, WireFor(env, last.event, None), env);
      RedeliverCallsNothing(init, frames, env);
      PostsEffects(frames, WireFor(env, last.event, None), env);
      CollectStep(Redeliver(init, frames, env), sent, Settled(last.ticket), CalledHandler);
    }
  }

  /**
   * A flush that finds frames transmits the buffered events in insertion
   * order, each once per frame, and settles their promises in the same order.
   */
  lemma RedeliverEffects(items: seq<Pending>, frames: seq<WindowRef>, env: Env)
    ensures PostedEvents(Redeliver(items, frames, env)) == Fan(Events(items), |frames|)
    ensures Collect(Redeliver(items, frames, env), SettledTicket) == Tickets(items)
    ensures Collect(Redeliver(items, frames, env), CalledHandler) == []
  {
    RedeliverPosts(items, frames, env);
    RedeliverSettles(items, frames, env);
    RedeliverCallsNothing(items, frames, env);
  }

  /** Every attempt of one transmission loop goes to one of its frames and carries its wire. */
  lemma PostsCarryWire(frames: seq<WindowRef>, wire: Wire, env: Env)
    ensures forall e | e in Posts(frames, wire, env) :: e.Posted? && e.to in frames && e.wire == wire
  {
    var p := Posts(frames, wire, env);
    PostsOnePerFrame(frames, wire, env);
    forall e | e in p
      ensures e.Posted? && e.to in frames && e.wire == wire
    {
      var j :| 0 <= j < |p| && p[j] == e;
    }
  }

  /**
   * A flushed event is encoded with no per-call options (only the defaults and
   * `CHANNEL_OPTIONS`) and with the `refId` of the flush, and goes only to the
   * untargeted frames: the target and options of the original send are lost.
   */
  lemma {:induction false} RedeliverForgetsOptions(items: seq<Pending>, frames: seq<WindowRef>, env: Env)
    ensures forall e | e in Redeliver(items, frames, env) && e.Posted? ::
      e.to in frames && e.wire.key == KEY && e.wire.refId == env.refIdQuery &&
      e.wire.options == Merge(env.channelOptions, None)
    decreases |items|
  {
    if items != [] {
      var last := items[|items| - 1];
      RedeliverForgetsOptions(items[..|items| - 1], frames, env);
      PostsCarryWire(frames, WireFor(env, last.event, None), env);
    }
  }

  /** A flush that finds no frames transmits, settles and calls nothing. */
  lemma {:induction false} ChainsEffects(items: seq<Pending>, first: nat)
    ensures PostedEvents(Chains(items, first)) == []
    ensures Collect(Chains(items, first), SettledTicket) == []
    ensures Collect(Chains(items, first), CalledHandler) == []
    decreases |items|
  {
    if items != [] {
      var c := Chains(items, first);
      assert c[..|c| - 1] == Chains(items[..|items| - 1], first);
      ChainsEffects(items[..|items| - 1], first);
    }
  }

  /**
   * `flush` when its re-sends resolve `frames`: afterwards the buffer is either
   * empty, every item having been transmitted in insertion order (once per
   * frame) and its promise settled in that order, or, with no frames, it holds
   * the same events in the same order and nothing was transmitted or settled.
   * Handler and readiness are untouched, the log only grows and no handler is
   * called.
   */
  lemma FlushOutcome(s: State, frames: seq<WindowRef>, env: Env)
    ensures var r := FlushWith(s, frames, env);
      && r.handler == s.handler && r.connected == s.connected
      && |s.log| <= |r.log| && r.log[..|s.log|] == s.log
      && Collect(r.log[|s.log|..], CalledHandler) == []
    ensures var r := FlushWith(s, frames, env);
      frames == [] ==>
        && Events(r.buffer) == Events(s.buffer)
        && PostedEvents(r.log[|s.log|..]) == []
        && Collect(r.log[|s.log|..], SettledTicket) == []
    ensures var r := FlushWith(s, frames, env);
      frames != [] ==>
        && r.buffer == []
        && PostedEvents(r.log[|s.log|..]) == Fan(Events(s.buffer), |frames|)
        && Collect(r.log[|s.log|..], SettledTicket) == Tickets(s.buffer)
  {
    var r := FlushWith(s, frames, env);
    if frames == [] {
      assert r.log[|s.log|..] == Chains(s.buffer, s.nextTicket);
      ChainsEffects(s.buffer, s.nextTicket);
      RebufferKeepsEvents(s.buffer, s.nextTicket);
      assert Events(r.buffer) == Events(s.buffer);
    } else {
      assert r.log[|s.log|..] == Redeliver(s.buffer, frames, env);
      RedeliverEffects(s.buffer, frames, env);
    }
  }

  /**
   * With no frames for the call's target, `send` appends exactly one entry
   * carrying the event to the end of the buffer under a fresh promise,
   * transmits nothing and leaves readiness and the handler alone.
   */
  lemma SendBuffers(s: State, role: Role, env: Env, event: Event, options: Option<map<string, Value>>)
    requires GetFrames(role, env, Field(options, "target")) == []
    ensures var o := SendSpec(s, role, env, event, options);
      && o.state.buffer == s.buffer + [Pending(event, s.nextTicket)]
      && Events(o.state.buffer) == Events(s.buffer) + [event]
      && o.state.log == s.log
      && o.state.connected == s.connected && o.state.handler == s.handler
      && o.reply == Waiting(s.nextTicket)
  {
    var o := SendSpec(s, role, env, event, options);
    assert Events(o.state.buffer) == Events(s.buffer) + [event];
  }

  /**
   * A send that finds frames, for its target and for the re-sends of its
   * flush, transmits the whole buffer and then its own event, and returns
   * `Promise.resolve(null)`.
   */
  lemma SendTransmits(s: State, frames: seq<WindowRef>, untargeted: seq<WindowRef>, env: Env, event: Event, wire: Wire)
    requires frames != [] && untargeted != []
    ensures SendWith(s, frames, untargeted, env, event, wire) ==
      Outcome(s.(buffer := [], log := s.log + Redeliver(s.buffer, untargeted, env) + Posts(frames, wire, env)),
              ResolvedNull)
  {
    if s.buffer == [] {
      assert s.log + Redeliver(s.buffer, untargeted, env) == s.log;
    }
  }

  lemma SuffixAfter(a: seq<Effect>, b: seq<Effect>, c: seq<Effect>)
    ensures |a| <= |a + b + c| && (a + b + c)[|a|..] == b + c
  {
  }

  /** The effects a flush-then-transmit adds, in order: the buffered events, then the new one. */
  lemma FlushThenPostOrder(items: seq<Pending>, untargeted: seq<WindowRef>, frames: seq<WindowRef>, wire: Wire, env: Env)
    ensures var added := Redeliver(items, untargeted, env) + Posts(frames, wire, env);
      && PostedEvents(added) == Fan(Events(items), |untargeted|) + Copies(wire.event, |frames|)
      && Collect(added, SettledTicket) == Tickets(items)
  {
    var done := Redeliver(items, untargeted, env);
    var sent := Posts(frames, wire, env);
    RedeliverEffects(items, untargeted, env);
    PostsEffects(frames, wire, env);
    CollectAppend(done, sent, PostedEvent);
    CollectAppend(done, sent, SettledTicket);
  }

  /**
   * A send whose target resolves `frames` and whose flush resolves
   * `untargeted`, both non-empty, transmits every buffered event (in order,
   * once per untargeted frame, settling their promises in order) before its
   * own event, which then goes once to each of `frames`.
   */
  lemma SendFlushesFirst(s: State, frames: seq<WindowRef>, untargeted: seq<WindowRef>, env: Env, event: Event, wire: Wire)
    requires frames != [] && untargeted != []
    ensures var o := SendWith(s, frames, untargeted, env, event, wire);
      && |s.log| <= |o.state.log|
      && PostedEvents(o.state.log[|s.log|..]) == Fan(Events(s.buffer), |untargeted|) + Copies(wire.event, |frames|)
      && Collect(o.state.log[|s.log|..], SettledTicket) == Tickets(s.buffer)
  {
    var done := Redeliver(s.buffer, untargeted, env);
    var sent := Posts(frames, wire, env);
    SendTransmits(s, frames, untargeted, env, event, wire);
    FlushThenPostOrder(s.buffer, untargeted, frames, wire, env);
    SuffixAfter(s.log, done, sent);
  }

  /** A send and a flush that disagree about frames: only the manager, whose targeted sends look at iframes. */
  lemma OnlyManagerOvertakes(role: Role, env: Env, target: Value)
    requires GetFrames(role, env, target) != [] && GetFrames(role, env, Undefined) == []
    ensures role == Manager && target.Str?
  {
    if role == Preview {
      PreviewFrames(env, target);
    } else if !target.Str? {
      UntargetedManagerFallsBack(env, target);
      UntargetedManagerFallsBack(env, Undefined);
    }
  }

  /**
   * When the call's target resolves but the untargeted re-sends of the flush
   * do not, the new event is transmitted while every older event stays
   * buffered: it overtakes them.
   */
  lemma SendOvertakesBuffered(s: State, frames: seq<WindowRef>, env: Env, event: Event, wire: Wire)
    requires frames != []
    ensures var o := SendWith(s, frames, [], env, event, wire);
      && o.reply == ResolvedNull
      && Events(o.state.buffer) == Events(s.buffer)
      && PostedEvents(o.state.log[|s.log|..]) == Copies(wire.event, |frames|)
  {
    var o := SendWith(s, frames, [], env, event, wire);
    var flushed := if s.buffer != [] then FlushWith(s, [], env) else s;
    var done := flushed.log[|s.log|..];
    var sent := Posts(frames, wire, env);
    if s.buffer != [] {
      FlushOutcome(s, [], env);
    } else {
      assert done == [];
    }
    assert flushed.log == s.log + done;
    assert o.state.log[|s.log|..] == done + sent;
    CollectAppend(done, sent, PostedEvent);
    PostsEffects(frames, wire, env);
  }

  /** The frames of the overtaking example: the target resolves, the untargeted re-sends do not. */
  lemma ExampleFrames(env: Env, frame: Element)
    requires frame == Element(IFrame, "ref", Some(""), true, Some(7), None, false)
    requires env == Env([frame], false, false, 0, Undefined, map[], {})
    ensures GetFrames(Manager, env, Str("ref")) == [7]
    ensures GetFrames(Manager, env, Undefined) == []
  {
    assert Filter(env.elements, e => TargetFrame(e, Str("ref"))) == [frame];
    UntargetedManagerFallsBack(env, Undefined);
    assert Filter(env.elements, DeclaredPeer) == [];
  }

  /** In the overtaking example the send goes to window 7 and its flush finds no frames. */
  lemma ExampleSend(env: Env, frame: Element, s: State, b: Event, options: Option<map<string, Value>>)
    requires frame == Element(IFrame, "ref", Some(""), true, Some(7), None, false)
    requires env == Env([frame], false, false, 0, Undefined, map[], {})
    requires options == Some(map["target" := Str("ref")])
    ensures SendSpec(s, Manager, env, b, options) == SendWith(s, [7], [], env, b, WireFor(env, b, options))
  {
    assert Field(options, "target") == Str("ref");
    ExampleFrames(env, frame);
  }

  /**
   * A concrete case of the overtaking above: event `a` is buffered under
   * ticket 0; the manager sends `b` to the iframe "ref", which is loaded and
   * marked `data-is-storybook=""`. `a` is buffered again under ticket 1 and `b`
   * is transmitted.
   */
  lemma OvertakingExample(a: Event, b: Event)
    ensures var frame := Element(IFrame, "ref", Some(""), true, Some(7), None, false);
      var env := Env([frame], false, false, 0, Undefined, map[], {});
      var s := State([Pending(a, 0)], None, false, [], 1);
      var o := SendSpec(s, Manager, env, b, Some(map["target" := Str("ref")]));
      o.state.buffer == [Pending(a, 1)] &&
      o.state.log == [Chained(1, 0), Posted(7, WireFor(env, b, Some(map["target" := Str("ref")])), false)]
  {
    var frame := Element(IFrame, "ref", Some(""), true, Some(7), None, false);
    var env := Env([frame], false, false, 0, Undefined, map[], {});
    var s := State([Pending(a, 0)], None, false, [], 1);
    var options := Some(map["target" := Str("ref")]);
    ExampleSend(env, frame, s, b, options);
    var wire := WireFor(env, b, options);
    assert Rebuffer([Pending(a, 0)], 1) == [Pending(a, 1)];
    assert Chains([Pending(a, 0)], 1) == [Chained(1, 0)];
    assert Posts([7], wire, env) == [Posted(7, wire, false)];
  }

  /**
   * A manager send without a target is not buffered when some element is a
   * declared storybook peer with a window: it reaches every such window.
   */
  lemma UntargetedSendReachesPeers(s: State, env: Env, event: Event)
    requires CurrentFrames(Manager, env) != [] && s.buffer == []
    ensures var o := SendSpec(s, Manager, env, event, None);
      o.reply == ResolvedNull &&
      o.state == s.(log := s.log + Posts(CurrentFrames(Manager, env), WireFor(env, event, None), env))
  {
    assert Field(None, "target") == Undefined;
    UntargetedManagerFallsBack(env, Undefined);
  }

  /** Three sends in a row that find no frames buffer their events in order under consecutive tickets. */
  lemma ThreeBuffered(s: State, role: Role, env: Env, a: Event, b: Event, c: Event)
    requires s.buffer == [] && GetFrames(role, env, Undefined) == []
    ensures var s1 := SendSpec(s, role, env, a, None).state;
      var s2 := SendSpec(s1, role, env, b, None).state;
      var s3 := SendSpec(s2, role, env, c, None).state;
      && SendSpec(s, role, env, a, None).reply == Waiting(s.nextTicket)
      && SendSpec(s1, role, env, b, None).reply == Waiting(s.nextTicket + 1)
      && SendSpec(s2, role, env, c, None).reply == Waiting(s.nextTicket + 2)
      && s3 == s.(buffer := [Pending(a, s.nextTicket), Pending(b, s.nextTicket + 1), Pending(c, s.nextTicket + 2)],
                  nextTicket := s.nextTicket + 3)
  {
    var s1 := SendSpec(s, role, env, a, None).state;
    var s2 := SendSpec(s1, role, env, b, None).state;
    ResendBuffers(s, role, env, a);
    ResendBuffers(s1, role, env, b);
    ResendBuffers(s2, role, env, c);
  }

  lemma ThreeItems(p: Pending, q: Pending, r: Pending)
    ensures Events([p, q, r]) == [p.event, q.event, r.event]
    ensures Tickets([p, q, r]) == [p.ticket, q.ticket, r.ticket]
  {
  }

  /** A send without options looks up the untargeted frames for itself and for its flush. */
  lemma UntargetedSend(s: State, role: Role, env: Env, event: Event)
    ensures var frames := GetFrames(role, env, Undefined);
      SendSpec(s, role, env, event, None) == SendWith(s, frames, frames, env, event, WireFor(env, event, None))
  {
    assert Field(None, "target") == Undefined;
  }

  /**
   * Buffered sends are flushed first-in first-out: three sends buffered while
   * nothing resolves, then a fourth once frames exist, transmit a, b, c, d in
   * that order, each once per frame, and settle the three promises in order.
   */
  lemma FifoAcrossSends(s: State, role: Role, env0: Env, env1: Env, a: Event, b: Event, c: Event, d: Event)
    requires s.buffer == []
    requires GetFrames(role, env0, Undefined) == []
    requires GetFrames(role, env1, Undefined) != []
    ensures var s1 := SendSpec(s, role, env0, a, None).state;
      var s2 := SendSpec(s1, role, env0, b, None).state;
      var s3 := SendSpec(s2, role, env0, c, None).state;
      var o := SendSpec(s3, role, env1, d, None);
      var k := |GetFrames(role, env1, Undefined)|;
      && o.reply == ResolvedNull
      && o.state.buffer == []
      && |s.log| <= |o.state.log|
      && PostedEvents(o.state.log[|s.log|..]) == Fan([a, b, c], k) + Copies(d, k)
      && Collect(o.state.log[|s.log|..], SettledTicket) == [s.nextTicket, s.nextTicket + 1, s.nextTicket + 2]
  {
    ThreeBuffered(s, role, env0, a, b, c);
    var s3 := s.(buffer := [Pending(a, s.nextTicket), Pending(b, s.nextTicket + 1), Pending(c, s.nextTicket + 2)],
                 nextTicket := s.nextTicket + 3);
    var frames := GetFrames(role, env1, Undefined);
    var wire := WireFor(env1, d, None);
    UntargetedSend(s3, role, env1, d);
    SendTransmits(s3, frames, frames, env1, d, wire);
    SendFlushesFirst(s3, frames, frames, env1, d, wire);
    ThreeItems(s3.buffer[0], s3.buffer[1], s3.buffer[2]);
    assert s3.buffer == [s3.buffer[0], s3.buffer[1], s3.buffer[2]];
  }

  /**
   * Readiness is one-way and flips only inside a successful delivery: after
   * the handler has been called and while a local frame exists, at which
   * moment the buffer is flushed; once connected, a delivery only calls the
   * handler.
   */
  lemma ReadinessIsOneWay(s: State, role: Role, env: Env, msg: Message)
    ensures var r := HandleSpec(s, role, env, msg);
      s.connected ==> r.connected
    ensures var r := HandleSpec(s, role, env, msg);
      !s.connected && r.connected ==>
        && Validate(role, env, msg).Accepted? && s.handler.Some? && LocalFrame(role, env) != []
        && |s.log| < |r.log|
        && r.log[|s.log|] == Handled(s.handler.value, Validate(role, env, msg).event)
        && r == FlushSpec(s.(log := s.log + [Handled(s.handler.value, Validate(role, env, msg).event)]), role, env).(connected := true)
    ensures var r := HandleSpec(s, role, env, msg);
      s.connected ==>
        r.buffer == s.buffer && r.nextTicket == s.nextTicket &&
        (r.log == s.log || (Validate(role, env, msg).Accepted? && s.handler.Some? &&
                            r.log == s.log + [Handled(s.handler.value, Validate(role, env, msg).event)]))
  {
    var r := HandleSpec(s, role, env, msg);
    if !s.connected && r.connected {
      var called := s.(log := s.log + [Handled(s.handler.value, Validate(role, env, msg).event)]);
      FlushOutcome(called, GetFrames(role, env, Undefined), env);
      assert r.log[..|called.log|] == called.log;
    }
  }

  /**
   * Two successful deliveries in a row with a local frame present: the first
   * flushes and connects, the second only calls the handler.
   */
  lemma FlushOnlyOnFirstDelivery(s: State, role: Role, env: Env, m1: Message, m2: Message)
    requires !s.connected && s.handler.Some? && LocalFrame(role, env) != []
    requires Validate(role, env, m1).Accepted? && Validate(role, env, m2).Accepted?
    ensures var s1 := HandleSpec(s, role, env, m1);
      var s2 := HandleSpec(s1, role, env, m2);
      && s1.connected
      && s1 == FlushSpec(s.(log := s.log + [Handled(s.handler.value, Validate(role, env, m1).event)]), role, env).(connected := true)
      && s2 == s1.(log := s1.log + [Handled(s.handler.value, Validate(role, env, m2).event)])
  {
  }

  /** A message without this protocol's tag changes nothing: no handler call, no flush, no readiness change. */
  lemma ForeignTrafficIgnored(s: State, role: Role, env: Env, msg: Message)
    requires !Tagged(msg)
    ensures HandleSpec(s, role, env, msg) == s
  {
  }

  /** A message that fails validation (undecodable, no event, no or falsy source, lookup throws, args not iterable) is dropped. */
  lemma RejectedMessageDropped(s: State, role: Role, env: Env, msg: Message)
    requires !Validate(role, env, msg).Accepted?
    ensures HandleSpec(s, role, env, msg) == s
  {
  }

  /** With no handler set, the `invariant` check throws inside the `try` and the message is dropped. */
  lemma NoHandlerDropped(s: State, role: Role, env: Env, msg: Message)
    requires s.handler.None?
    ensures HandleSpec(s, role, env, msg) == s
  {
  }

  /** A handler call, whether or not a flush follows it, is the only handler call logged. */
  lemma HandledOnce(s: State, h: HandlerId, ev: Event, frames: seq<WindowRef>, env: Env)
    ensures var called := s.(log := s.log + [Handled(h, ev)]);
      && |s.log| <= |called.log| && Collect(called.log[|s.log|..], CalledHandler) == [h]
      && |s.log| <= |FlushWith(called, frames, env).log|
      && Collect(FlushWith(called, frames, env).log[|s.log|..], CalledHandler) == [h]
  {
    var call := [Handled(h, ev)];
    var called := s.(log := s.log + call);
    var added: seq<Effect>;
    if frames == [] {
      added := Chains(called.buffer, called.nextTicket);
      ChainsEffects(called.buffer, called.nextTicket);
    } else {
      added := Redeliver(called.buffer, frames, env);
      RedeliverEffects(called.buffer, frames, env);
    }
    assert FlushWith(called, frames, env).log == s.log + call + added;
    assert Collect(call, CalledHandler) == [h];
    assert called.log[|s.log|..] == call;
    SuffixAfter(s.log, call, added);
    CollectAppend(call, added, CalledHandler);
  }

  /** An accepted delivery with a handler set calls that handler exactly once, whether or not it flushes. */
  lemma DeliveryCallsHandlerOnce(s: State, role: Role, env: Env, msg: Message)
    requires Validate(role, env, msg).Accepted? && s.handler.Some?
    ensures var r := HandleSpec(s, role, env, msg);
      |s.log| <= |r.log| && Collect(r.log[|s.log|..], CalledHandler) == [s.handler.value]
  {
    HandledOnce(s, s.handler.value, Validate(role, env, msg).event, GetFrames(role, env, Undefined), env);
  }

  /**
   * The handler slot holds one handler: after registering `h1` and then `h2`,
   * a delivery calls `h2` once and `h1` not at all.
   */
  lemma HandlerReplaced(s: State, role: Role, env: Env, msg: Message, h1: HandlerId, h2: HandlerId)
    requires Validate(role, env, msg).Accepted?
    ensures var r := HandleSpec(SetHandlerSpec(SetHandlerSpec(s, h1), h2), role, env, msg);
      |s.log| <= |r.log| && Collect(r.log[|s.log|..], CalledHandler) == [h2]
  {
    HandledOnce(s.(handler := Some(h2)), h2, Validate(role, env, msg).event, GetFrames(role, env, Undefined), env);
  }
}

=== FILE: protocol.dfy ===
/**
 * The transport's state and the specification of each operation as a function
 * of the state before it and the environment it observes.  The effects a call
 * has on the outside world (transmissions, promise settlement, handler calls)
 * are appended to `log`.
 */
module Protocol {
  import opened Wrappers
  import opened Js
  import opened Dom
  import opened Roles
  import opened Messages
  import opened EncoderOptions
  import opened Frames
  import opened Inbound

  /** An opaque handle to the user handler given to `setHandler`. */
  type HandlerId = nat

  /** A buffered send: the event and the promise (`ticket`) its caller waits on. */
  datatype Pending = Pending(event: Event, ticket: nat)

  /** What `send` returns: a promise still pending, or `Promise.resolve(null)`. */
  datatype Reply = Waiting(ticket: nat) | ResolvedNull

  /** An effect on the world outside the transport. */
  datatype Effect =
    | Posted(to: WindowRef, wire: Wire, failed: bool)  // one `postMessage` attempt; `failed` when it threw
    | Settled(ticket: nat)                             // a buffered promise resolved with null
    | Chained(from: nat, into: nat)                    // promise `from` now settles promise `into`
    | Handled(handler: HandlerId, event: Event)        // the user handler was called

  datatype State = State(
    buffer: seq<Pending>,
    handler: Option<HandlerId>,
    connected: bool,
    log: seq<Effect>,
    nextTicket: nat)

  const Initial: State := State([], None, false, [], 0)

  /** The outcome of `send`: the new state and the returned promise. */
  datatype Outcome = Outcome(state: State, reply: Reply)

  /** What a send hands to the encoder: the envelope with the current `refId` query parameter and the merged options. */
  function WireFor(env: Env, event: Event, options: Option<map<string, Value>>): Wire {
    Wire(KEY, event, env.refIdQuery, Merge(env.channelOptions, options))
  }

  /**
   * `frames.forEach(f => postMessage)`: one attempt per frame, in order, each
   * carrying the same wire; a failing frame does not stop the others.
   */
  function Posts(frames: seq<WindowRef>, wire: Wire, env: Env): seq<Effect> {
    if frames == [] then []
    else
      var last := frames[|frames| - 1];
      Posts(frames[..|frames| - 1], wire, env) + [Posted(last, wire, last in env.unreachable)]
  }

  /** A flush that finds frames: each buffered event is re-sent without options, then its promise settles. */
  function Redeliver(items: seq<Pending>, frames: seq<WindowRef>, env: Env): seq<Effect> {
    if items == [] then []
    else
      var last := items[|items| - 1];
      Redeliver(items[..|items| - 1], frames, env) +
        Posts(frames, WireFor(env, last.event, None), env) + [Settled(last.ticket)]
  }

  /** A flush that finds no frames: each event is buffered again under a fresh ticket. */
  function Rebuffer(items: seq<Pending>, first: nat): (r: seq<Pending>)
    ensures |r| == |items|
  {
    if items == [] then []
    else Rebuffer(items[..|items| - 1], first) + [Pending(items[|items| - 1].event, first + |items| - 1)]
  }

  /** ... and each fresh promise is chained to the original one. */
  function Chains(items: seq<Pending>, first: nat): seq<Effect> {
    if items == [] then []
    else Chains(items[..|items| - 1], first) + [Chained(first + |items| - 1, items[|items| - 1].ticket)]
  }

  /**
   * `flush`: the buffer is detached and each item is sent again with no
   * options, so with no target; in a fixed environment every re-send resolves
   * the same frames.
   */
  function FlushSpec(s: State, role: Role, env: Env): State {
    FlushWith(s, GetFrames(role, env, Undefined), env)
  }

  /**
   * A flush whose re-sends resolve `frames`: with none, every item is buffered
   * again; otherwise every item is transmitted and its promise settled.
   */
  function FlushWith(s: State, frames: seq<WindowRef>, env: Env): State {
    if frames == [] then
      s.(buffer := Rebuffer(s.buffer, s.nextTicket),
         nextTicket := s.nextTicket + |s.buffer|,
         log := s.log + Chains(s.buffer, s.nextTicket))
    else
      s.(buffer := [], log := s.log + Redeliver(s.buffer, frames, env))
  }

  /**
   * `send(event, options)`: with no frames for the call's target the event is
   * buffered and a pending promise returned; otherwise a non-empty buffer is
   * flushed first and then every frame gets the event.
   */
  function SendSpec(s: State, role: Role, env: Env, event: Event, options: Option<map<string, Value>>): Outcome {
    SendWith(s, GetFrames(role, env, Field(options, "target")), GetFrames(role, env, Undefined), env, event,
             WireFor(env, event, options))
  }

  /** A send whose target resolves `frames` and whose flush would resolve `untargeted`. */
  function SendWith(s: State, frames: seq<WindowRef>, untargeted: seq<WindowRef>, env: Env, event: Event, wire: Wire): Outcome {
    if frames == [] then
      Outcome(s.(buffer := s.buffer + [Pending(event, s.nextTicket)], nextTicket := s.nextTicket + 1),
              Waiting(s.nextTicket))
    else
      var flushed := if s.buffer != [] then FlushWith(s, untargeted, env) else s;
      Outcome(flushed.(log := flushed.log + Posts(frames, wire, env)), ResolvedNull)
  }

  /**
   * The transmission loop makes exactly one attempt per frame, in frame order,
   * each with the same wire; a frame whose `postMessage` throws does not stop
   * the attempts on the frames after it.
   */
  lemma {:induction false} PostsOnePerFrame(frames: seq<WindowRef>, wire: Wire, env: Env)
    ensures |Posts(frames, wire, env)| == |frames|
    ensures forall i :: 0 <= i < |frames| ==>
      Posts(frames, wire, env)[i] == Posted(frames[i], wire, frames[i] in env.unreachable)
  {
    if frames != [] {
      PostsOnePerFrame(frames[..|frames| - 1], wire, env);
    }
  }

  /** A flush that finds no frames keeps every event in place and gives entry `i` the ticket `first + i`. */
  lemma {:induction false} RebufferKeepsEvents(items: seq<Pending>, first: nat)
    ensures forall i :: 0 <= i < |items| ==> Rebuffer(items, first)[i] == Pending(items[i].event, first + i)
  {
    if items != [] {
      RebufferKeepsEvents(items[..|items| - 1], first);
    }
  }

  /** `setHandler`: the new handler replaces any previous one. */
  function SetHandlerSpec(s: State, h: HandlerId): State {
    s.(handler := Some(h))
  }

  /**
   * `handleEvent`: an accepted message reaches the handler when one is set;
   * afterwards, the first time a local frame exists, the buffer is flushed and
   * the transport becomes connected.
   */
  function HandleSpec(s: State, role: Role, env: Env, msg: Message): State {
    match Validate(role, env, msg)
    case Accepted(ev) =>
      if s.handler.None? then s
      else
        var called := s.(log := s.log + [Handled(s.handler.value, ev)]);
        if !called.connected && LocalFrame(role, env) != [] then
          FlushSpec(called, role, env).(connected := true)
        else called
    case _ => s
  }

  /** A re-send during a flush has no options, so no target: with no untargeted frames it is buffered again. */
  lemma ResendBuffers(s: State, role: Role, env: Env, event: Event)
    requires GetFrames(role, env, Undefined) == []
    ensures SendSpec(s, role, env, event, None) ==
      Outcome(s.(buffer := s.buffer + [Pending(event, s.nextTicket)], nextTicket := s.nextTicket + 1),
              Waiting(s.nextTicket))
  {
    assert Field(None, "target") == Undefined;
  }

  /** ... and with untargeted frames and an empty buffer it is transmitted to them. */
  lemma ResendTransmits(s: State, role: Role, env: Env, event: Event)
    requires GetFrames(role, env, Undefined) != [] && s.buffer == []
    ensures SendSpec(s, role, env, event, None) ==
      Outcome(s.(log := s.log + Posts(GetFrames(role, env, Undefined), WireFor(env, event, None), env)),
              ResolvedNull)
  {
    assert Field(None, "target") == Undefined;
  }

  /** One more item of a flush, as each of the three flush sequences sees it. */
  lemma FlushStep(items: seq<Pending>, i: nat, first: nat, frames: seq<WindowRef>, env: Env)
    requires i < |items|
    ensures Rebuffer(items[..i + 1], first) == Rebuffer(items[..i], first) + [Pending(items[i].event, first + i)]
    ensures Chains(items[..i + 1], first) == Chains(items[..i], first) + [Chained(first + i, items[i].ticket)]
    ensures Redeliver(items[..i + 1], frames, env) ==
      Redeliver(items[..i], frames, env) + Posts(frames, WireFor(env, items[i].event, None), env) + [Settled(items[i].ticket)]
  {
    assert items[..i + 1][..i] == items[..i];
  }

  /**
   * The state part-way through a flush that started in `s0` and detached
   * `items`, after the first `i` items have been sent again to `frames`.
   */
  function FlushPrefix(s0: State, items: seq<Pending>, frames: seq<WindowRef>, env: Env, i: nat): State
    requires i <= |items|
  {
    if frames == [] then
      s0.(buffer := Rebuffer(items[..i], s0.nextTicket),
          nextTicket := s0.nextTicket + i,
          log := s0.log + Chains(items[..i], s0.nextTicket))
    else
      s0.(buffer := [], log := s0.log + Redeliver(items[..i], frames, env))
  }

  /** Part-way through a flush, the buffer holds at most the items re-sent so far. */
  lemma FlushPrefixBound(s0: State, items: seq<Pending>, frames: seq<WindowRef>, env: Env, i: nat)
    requires i <= |items|
    ensures |FlushPrefix(s0, items, frames, env, i).buffer| <= i
  {
  }

  /** Before any item is re-sent, the flush has only emptied the buffer. */
  lemma FlushPrefixStart(s0: State, items: seq<Pending>, frames: seq<WindowRef>, env: Env)
    ensures FlushPrefix(s0, items, frames, env, 0) == s0.(buffer := [])
  {
    assert items[..0] == [];
  }

  /** Once every item has been re-sent, the state is the flush's outcome. */
  lemma FlushPrefixAll(s0: State, frames: seq<WindowRef>, env: Env)
    ensures FlushPrefix(s0, s0.buffer, frames, env, |s0.buffer|) == FlushWith(s0, frames, env)
  {
    assert s0.buffer[..|s0.buffer|] == s0.buffer;
  }

  /** How `flush` settles item `it` once its re-send returned `reply`. */
  function Settle(reply: Reply, it: Pending): Effect {
    match reply
    case ResolvedNull => Settled(it.ticket)
    case Waiting(t) => Chained(t, it.ticket)
  }

  /** Re-sending item `i` and settling its promise extends a flush by one item. */
  lemma FlushedOneMore(role: Role, env: Env, s0: State, items: seq<Pending>, i: nat)
    requires i < |items|
    ensures var frames := GetFrames(role, env, Undefined);
      var o := SendSpec(FlushPrefix(s0, items, frames, env, i), role, env, items[i].event, None);
      o.state.(log := o.state.log + [Settle(o.reply, items[i])]) == FlushPrefix(s0, items, frames, env, i + 1)
  {
    var frames := GetFrames(role, env, Undefined);
    var s := FlushPrefix(s0, items, frames, env, i);
    FlushStep(items, i, s0.nextTicket, frames, env);
    if frames == [] {
      ResendBuffers(s, role, env, items[i].event);
    } else {
      ResendTransmits(s, role, env, items[i].event);
      AppendStep(s0.log, Redeliver(items[..i], frames, env), Redeliver(items[..i + 1], frames, env),
                 Posts(frames, WireFor(env, items[i].event, None), env), Settled(items[i].ticket), s.log);
    }
  }

  lemma AppendStep(log0: seq<Effect>, done: seq<Effect>, more: seq<Effect>, sent: seq<Effect>, last: Effect, cur: seq<Effect>)
    requires cur == log0 + done && more == done + sent + [last]
    ensures cur + sent + [last] == log0 + more
  {
  }
}

=== FILE: roles.dfy ===
/** The transport's role: the manager (host document) or the preview (embedded frame). */
module Roles {
  import opened Wrappers
  import opened Js

  datatype Role = Manager | Preview

  /**
   * The constructor's check of `config.page`: only "manager" and "preview" are
   * accepted; any other value is a construction error carrying that value.
   */
  function ParseRole(page: Value): (r: Result<Role, Value>)
    ensures r.Ok? <==> page == Str("manager") || page == Str("preview")
    ensures r == Ok(Manager) <==> page == Str("manager")
    ensures r == Ok(Preview) <==> page == Str("preview")
    ensures r.Err? ==> r.error == page
  {
    if page == Str("manager") then Ok(Manager)
    else if page == Str("preview") then Ok(Preview)
    else Err(page)
  }
}

=== FILE: transport.dfy ===
/**
 * `PostmsgTransport`: the role fixed at construction, the outbound buffer, the
 * single handler slot and the connected flag, updated in place by its methods.
 */
module Transport {
  import opened Wrappers
  import opened Js
  import opened Dom
  import opened Roles
  import opened Messages
  import opened EncoderOptions
  import opened Frames
  import opened Inbound
  import opened Protocol

  class PostmsgTransport {
    const role: Role
    var buffer: seq<Pending>
    var handler: Option<HandlerId>
    var connected: bool
    /** The effects on the outside world, oldest first. */
    var log: seq<Effect>
    /** The identity the next pending promise gets. */
    var nextTicket: nat

    /** The abstract state these fields represent. */
    function Model(): State
      reads this
    {
      State(buffer, handler, connected, log, nextTicket)
    }

    /** Construction with a role that has passed the `config.page` check. */
    constructor(role: Role)
      ensures this.role == role && Model() == Initial
    {
      this.role := role;
      buffer := [];
      handler := None;
      connected := false;
      log := [];
      nextTicket := 0;
    }

    /** `setHandler`: wraps `h` so that readiness is checked after each call; replaces any earlier handler. */
    method SetHandler(h: HandlerId)
      modifies this
      ensures Model() == SetHandlerSpec(old(Model()), h)
    {
      handler := Some(h);
    }

    /** `send`. */
    method Send(event: Event, options: Option<map<string, Value>>, env: Env) returns (reply: Reply)
      modifies this
      decreases |buffer|, 1
      ensures Model() == SendSpec(old(Model()), role, env, event, options).state
      ensures reply == SendSpec(old(Model()), role, env, event, options).reply
    {
      var target := Field(options, "target");
      var wire := WireFor(env, event, options);
      var frames := GetFrames(role, env, target);
      if frames == [] {
        reply := Waiting(nextTicket);
        buffer := buffer + [Pending(event, nextTicket)];
        nextTicket := nextTicket + 1;
        return;
      }
      if buffer != [] {
        Flush(env);
      }
      Broadcast(frames, wire, env);
      reply := ResolvedNull;
    }

    /** `flush`: detach the buffer, then send each item again, in order, with no options. */
    method Flush(env: Env)
      modifies this
      decreases |buffer|, 0
      ensures Model() == FlushSpec(old(Model()), role, env)
    {
      ghost var s0 := Model();
      ghost var frames := GetFrames(role, env, Undefined);
      var items := buffer;
      buffer := [];
      FlushPrefixStart(s0, items, frames, env);
      for i := 0 to |items|
        invariant Model() == FlushPrefix(s0, items, frames, env, i)
      {
        FlushPrefixBound(s0, items, frames, env, i);
        FlushedOneMore(role, env, s0, items, i);
        var reply := Send(items[i].event, None, env);
        log := log + [Settle(reply, items[i])];
      }
      FlushPrefixAll(s0, frames, env);
    }

    /** The transmission loop of `send`: every frame gets one attempt; a throwing `postMessage` is logged and skipped. */
    method Broadcast(frames: seq<WindowRef>, wire: Wire, env: Env)
      modifies this
      ensures Model() == old(Model()).(log := old(log) + Posts(frames, wire, env))
    {
      for i := 0 to |frames|
        invariant Model() == old(Model()).(log := old(log) + Posts(frames[..i], wire, env))
      {
        log := log + [Posted(frames[i], wire, frames[i] in env.unreachable)];
        assert frames[..i + 1][..i] == frames[..i];
      }
      assert frames[..|frames|] == frames;
    }

    /** `handleEvent` together with the wrapper `setHandler` puts around the user handler. */
    method HandleEvent(msg: Message, env: Env)
      modifies this
      ensures Model() == HandleSpec(old(Model()), role, env, msg)
    {
      var verdict := Validate(role, env, msg);
      if !verdict.Accepted? {
        return;
      }
      if handler.None? {
        return;
      }
      log := log + [Handled(handler.value, verdict.event)];
      if !connected && LocalFrame(role, env) != [] {
        Flush(env);
        connected := true;
      }
    }
  }

  /** The constructor: a `page` other than "manager" or "preview" is a construction error. */
  method Create(page: Value) returns (r: Result<PostmsgTransport, Value>)
    ensures r.Ok? <==> ParseRole(page).Ok?
    ensures r.Ok? ==> fresh(r.value) && r.value.role == ParseRole(page).value && r.value.Model() == Initial
    ensures r.Err? ==> r.error == page
  {
    match ParseRole(page)
    case Ok(role) =>
      var t := new PostmsgTransport(role);
      r := Ok(t);
    case Err(e) =>
      r := Err(e);
  }
}

=== FILE: wrappers.dfy ===
/** Option and Result, used for absent values and for construction errors. */
module Wrappers {
  datatype Option<+T> = None | Some(value: T)

  datatype Result<+T, +E> = Ok(value: T) | Err(error: E)
}
